=== FILE: README.md ===
# ZCash DCA bot: the accounting core in Dafny

This project models the accounting core of the ZCash dollar-cost-averaging bot (`zcash_dca.py`):

- the purchase record and its dictionary form (`PurchaseRecord`, `to_dict`, `from_dict`);
- the accumulation ledger (`AccumulationTracker`):
  - `add_purchase`, `get_average_price`, `get_stats` and `_initialize_empty_data`;
  - the JSON document that `save_data` writes and `load_data` reads back, including load's error paths;
- the pricing arithmetic of `KrakenClient`: the ticker price rounded down to cents, and the order size rounded down to 8 digits;
- the decision logic of `ZCashDCABot.buy`: the budget check, the dry-run branch, the live branch that records the exchange's fill, and the catch-all failure.

Python's `Decimal` is modelled exactly, as `Dec(coef, exp)`, the value `coef * 10^exp`.

- Two decimals are equal (`==`) when `str()` prints them the same, so `1.5` and `1.50` are different.
- `Le`, `Lt` and `SameValue` compare numeric values.
- Addition keeps the smaller exponent, as Python does.
- `str()` follows Python's scientific-notation rule. The parser reads a sign, ASCII digits, one point and an exponent: the part of `Decimal(text)`'s syntax that `str()` produces.
- Division followed by `quantize(..., ROUND_DOWN)` is the exact quotient truncated toward zero.

Modules:

- `Wrappers`: `Option`.
- `Decimals`: arithmetic, comparison and rounding.
- `DecimalText`: `str(Decimal)` and `Decimal(str)`, with their round trip.
- `Records`: the JSON value, the record, and `to_dict` and `from_dict`.
- `Tracker`: the ledger, the statistics, save and load.
- `Kraken`: price and quantity rounding.
- `Bot`: `buy`.

The exchange, the file system and the clock are not called. What they would return is passed in as parameters:

- the ticker's last price, or `None` when the fetch fails;
- the order's fill (`filled`, `cost`, `id`), or `None` when the order fails;
- what the ledger file holds: no file, text that is not JSON, or a JSON value;
- the current time, as text.

`buy` returns the calls it would make to the exchange, in order. This makes "nothing is asked of the exchange" something a contract can state.

Facts about the code that the model keeps:

- `load_data` catches only `JSONDecodeError`, `KeyError` and `InvalidOperation`. Any other error escapes and ends the run (`Crashed`): a `null` total, a top-level JSON list, or a non-empty string as `purchases`. It does not always start empty. `Tracker.NullTotalCrashes` states one such input.
- Loading trusts the stored totals and does not compare them with the records (`Tracker.LoadDoesNotCheckTotals`).
- The totals always equal the sums of the records only for a ledger built from the empty one by `add_purchase` (`Tracker.ReplayConsistent`). Every `buy` preserves that equality (`Bot.BuyPreservesConsistency`).
- `save_data` overwrites the file in place. The model claims no atomicity and no write-error result.

## Model

| member | source | states |
|---|---|---|
| Decimals.DivDown | zcash_dca.py:138-140 | `ROUND_DOWN` on an integer quotient: the result brackets n/d from the zero side, for negative n too |
| Decimals.AddValue | zcash_dca.py:120-121 | `+=` on decimals is exact: the sum carries the smaller exponent and, at any common scale, its value is the sum of the values |
| Decimals.AddZero | zcash_dca.py:113-114 | adding to the initial `Decimal('0')` leaves an amount with no positive exponent exactly as it was |
| Decimals.TotalSnoc | zcash_dca.py:119-121 | summing the records and then adding one more amount equals summing the extended list |
| Decimals.QuotientDownBounds | zcash_dca.py:138-140 | for a positive divisor, x / y quantized down to k digits is q with k digits and q*y <= x < (q+ulp)*y for x >= 0; mirrored for x < 0 |
| Decimals.RoundedDownQuotientUnique | zcash_dca.py:138-140 | at most one k-digit decimal meets those bounds, so the bounds determine the rounded quotient |
| Decimals.QuantizeDownBounds | zcash_dca.py:171 | `quantize(Decimal('0.01'), ROUND_DOWN)`: the result has k digits, is at most x, and x is below the result plus one unit (mirrored for x < 0) |
| Decimals.QuantizeDownExact | zcash_dca.py:289-291 | an amount that already has at most k fractional digits keeps its value when quantized |
| Decimals.QuantizeDownIdempotent | zcash_dca.py:171 | quantizing twice to the same precision gives the same decimal as quantizing once |
| DecimalText.FormatParseRoundTrip | zcash_dca.py:46-48 | `Decimal(str(d))` gives back `d` exactly, coefficient and exponent, for every finite decimal |
| Records.NewRecord | zcash_dca.py:36-50 | the constructor's `Decimal(str(x))` leaves every amount unchanged: the record holds exactly the values passed |
| Records.DecimalOf | zcash_dca.py:68-70 | `Decimal(v)`: text that parses gives that decimal, other text is the `InvalidOperation` that `load_data` catches; integers and booleans convert exactly; `null`, lists and objects raise an error that `load_data` does not catch |
| Records.FromDict | zcash_dca.py:63-73 | indexing a non-object raises; a record read back has every required key; a missing `date` is a `KeyError`; with text fields, a missing `zec_bought`/`eur_spent`/`price_per_zec` (`KeyError`) or an amount that is not a number (`InvalidOperation`) is an error `load_data` catches |
| Records.RecordRoundTrip | zcash_dca.py:52-73 | `from_dict(to_dict(r)) == r` field for field, with every amount exact |
| Records.FromDictFields | zcash_dca.py:63-73 | a dictionary whose six fields all read successfully builds exactly the record of those values |
| Records.FromDictDefaults | zcash_dca.py:71-72 | without `order_id` and `dry_run`, the record has no order id and is not a dry run |
| Records.FromDictAll | zcash_dca.py:96-99 | the list comprehension succeeds iff every item does, and keeps them in order; otherwise the first failing item decides which error escapes |
| Records.RecordsRoundTrip | zcash_dca.py:129 | reading back the list of dictionaries gives the same list of records |
| Tracker.EmptyLedgerConsistent | zcash_dca.py:111-115 | the empty ledger has no records, and its zero totals are the sums of its (no) records |
| Tracker.AddPurchase | zcash_dca.py:117-121 | the record is appended at the end, the list grows by exactly one, and every earlier record stays in place |
| Tracker.AddPurchaseTotals | zcash_dca.py:120-121 | each total grows by exactly the record's amount, compared at any common scale |
| Tracker.AddPurchaseConsistent | zcash_dca.py:117-121 | when the totals equal the sums of the records, they still do after `add_purchase` |
| Tracker.ReplayRecords | zcash_dca.py:117-119 | from the empty ledger, the records are exactly those added, in order |
| Tracker.ReplayConsistent | zcash_dca.py:111-121 | from the empty ledger, any sequence of purchases leaves both totals equal to the sums of the records |
| Tracker.AveragePrice | zcash_dca.py:135-141 | None iff `total_zec` is not > 0; otherwise `a` with 2 fractional digits such that a*zec <= eur < (a+0.01)*zec |
| Tracker.AveragePriceUnique | zcash_dca.py:135-141 | any 2-digit decimal that meets those bounds is the average the tracker reports |
| Tracker.AveragePriceExample | zcash_dca.py:135-141 | 100.555 EUR spent over 10 ZEC averages 10.05 |
| Tracker.GetStats | zcash_dca.py:143-152 | the totals are the ledger's, the count is the number of records, the average is `get_average_price`; the dates are present iff there are records, and are then the first and the last record's dates |
| Tracker.StatsAfterAdd | zcash_dca.py:143-152 | after a purchase: the count is one more, the last date is the new record's, and the first date changes only on an empty ledger |
| Tracker.StatsOfReplay | zcash_dca.py:143-152 | on a ledger built by `add_purchase` from the empty one, the reported totals are the sums of the records |
| Tracker.DecodeLedger | zcash_dca.py:93-99 | `data.get` on anything but a JSON object raises an error that escapes `load_data`; an object decodes iff both totals convert and the purchases read, and otherwise the first failing read decides whether the error is caught; a decoded present total is `Decimal(value)` and a missing one zero; missing purchases are none, so `{}` is the empty ledger; a stored list decodes to exactly `from_dict` of each item, in order |
| Tracker.PurchasesOf | zcash_dca.py:96-99 | iterating `data.get('purchases', [])`: missing gives no records, a list is read with `from_dict` item by item; empty text or an empty object gives no records, non-empty text or a non-empty object (`TypeError`) and `null`, numbers or booleans (not iterable) raise an error that escapes `load_data` |
| Tracker.LoadData | zcash_dca.py:86-109 | a decoded document is loaded as is; a missing file, non-JSON text, or a caught `KeyError`/`InvalidOperation` starts empty; "no file found" iff there is no file; the run crashes exactly when decoding raises an uncaught error |
| Tracker.SaveLoadRoundTrip | zcash_dca.py:124-130 | loading the document `save_data` wrote gives back the same ledger, totals and records exactly |
| Tracker.DecodeSaved | zcash_dca.py:124-130 | decoding the saved fields of a ledger yields that ledger |
| Tracker.StoredTotal | zcash_dca.py:93-94 | a total stored as its text reads back as the same decimal |
| Tracker.StoredPurchases | zcash_dca.py:96-99 | a stored list of record dictionaries reads back as the same records |
| Tracker.BadTotalStartsEmpty | zcash_dca.py:93-106 | a total whose text is not a number (`InvalidOperation`) makes the tracker start empty |
| Tracker.BadRecordStartsEmpty | zcash_dca.py:96-106 | a stored record failing with a caught `KeyError` or `InvalidOperation`, after only readable records, makes the tracker start empty |
| Tracker.LoadDoesNotCheckTotals | zcash_dca.py:93-99 | a file claiming 5 ZEC with no purchases loads as such, so a loaded ledger need not be consistent |
| Tracker.NullTotalCrashes | zcash_dca.py:93-103 | `"total_zec": null` raises a `TypeError` that `load_data` does not catch |
| Kraken.CurrentPrice | zcash_dca.py:170-171 | the quoted price is the last price rounded down to cents |
| Kraken.CurrentPriceOfCents | zcash_dca.py:171 | a last price already in cents is quoted unchanged |
| Kraken.CalculateZecAmount | zcash_dca.py:175-179 | fails iff the price is zero. Otherwise the quantity has 8 digits. For a positive price, q*price <= eur < (q+1e-8)*price, so the order never costs more than the budget |
| Kraken.ZecAmountUnique | zcash_dca.py:175-179 | for a positive price, the bounds determine the quantity |
| Kraken.ZecAmountExample | zcash_dca.py:175-179 | 100.00 EUR at 33.33 EUR/ZEC buys 3.00030003 ZEC |
| Bot.Budget | zcash_dca.py:289-294 | the budget is the requested amount rounded down to cents, and it is positive (passes the check) iff the request is at least 0.01 |
| Bot.CentsPositive | zcash_dca.py:289-294 | an amount rounded down to cents is positive iff it is at least 0.01 |
| Bot.Buy | zcash_dca.py:270-390 | `buy` makes no call, the ticker fetch alone, or the fetch and then one order; it makes no call iff the budget check fails. It fails iff the budget is under a cent, the fetch fails, the quote is zero, or a live order fails; a dry run otherwise reports a simulated purchase. An order is placed iff the run is live, the budget is at least a cent, the fetch succeeded and the quote is non-zero, and it asks for exactly `calculate_zec_amount(budget, quote)`. It records a purchase iff in addition the order returned a fill (even one with `filled = 0`); every other outcome leaves the ledger unchanged |
| Bot.FillPrice | zcash_dca.py:348-350 | the recorded unit price is cost / filled rounded down to cents when filled > 0, and the quoted price otherwise |
| Bot.RejectsSubCentBudget | zcash_dca.py:289-294 | a budget under one cent fails before any call to the exchange and leaves the ledger unchanged, whatever the exchange would answer |
| Bot.AcceptsCentBudget | zcash_dca.py:293-302 | a budget of at least one cent always reaches the ticker fetch |
| Bot.DryRunLeavesLedger | zcash_dca.py:309-337 | a dry run keeps the ledger and places no order. It reports the whole budget at the quoted price, a quantity within the budget, and total + quantity as the simulated total; the order answer does not matter |
| Bot.LiveBuyRecordsFill | zcash_dca.py:339-383 | a live buy orders the computed quantity and records the fill's quantity, cost and id with the fill price. The ledger gains exactly that record, and the reported total is old total + filled |
| Bot.LiveBuySteps | zcash_dca.py:343-362 | once budget, quote and quantity are known, a live buy is the order followed by `add_purchase` of the fill's record |
| Bot.BuyPreservesConsistency | zcash_dca.py:270-390 | whatever the exchange answers, a ledger whose totals match its records still does after `buy` |
| Bot.LiveBuyExample | zcash_dca.py:339-383 | 50 EUR at a last price of 33.335 orders 1.50015001 ZEC; a fill of 1.5 ZEC for 49.99 EUR records 33.32 EUR/ZEC |

## Left out

- Network calls to the exchange (`fetch_ticker`, `create_market_buy_order`) are not modelled. Their results are parameters, and any failure is one `None`.
- The `float(zec_amount)` passed to the order call is binary floating point at a library boundary, and is not modelled.
- The float `amount_eur`, and the floats `ticker['last']`, `filled` and `cost` read through `str()` (zcash_dca.py:289, 170, 346-347), are taken to be the decimals their `str()` spells.
- File I/O and JSON text layout (`open`, `json.dump(indent=2)`) are not modelled. A file is no file, non-JSON text, or a JSON value.
- Only integral JSON numbers are modelled, not JSON floats.
- An error while saving inside `add_purchase` is not modelled. In the source, such an error would make `buy` report failure after the in-memory ledger had already changed.
- Records.DecimalOf: a list of three items, which Python reads as a decimal tuple, is treated as an escaping error.
- Records.FromDict: a `date` that is not a string, an `order_id` that is neither string nor `null`, or a `dry_run` that is not a boolean is read as an unreadable file (`Malformed`). Python would store such values as they are.
- Decimal text with surrounding whitespace, underscores, non-ASCII Unicode digits, `NaN` or `Infinity` is not modelled: such stored text reads as unparsable (the tracker starts empty) where Python would accept it. A signed zero such as `-0` reads as plain zero, losing the sign Python keeps. Only finite decimals are modelled.
- Python's 28-significant-digit context precision is not modelled. Division is exact before truncation, and `quantize`'s `InvalidOperation` for results wider than the precision does not arise.
- Decimals.QuotientDownBounds: the bounds are stated for a positive divisor only. A negative ticker price divides correctly in the model, but its bounds are not stated.
- Post generation and display (`generate_post`, `display_post`) are text layout and are not modelled. The `"DRY RUN - "` prefix appears iff `dry_run` (zcash_dca.py:232-233), and is also not modelled.
- Console output, `datetime.now()` (a parameter here), dotenv credential loading, and the `fire` command line are not modelled.

=== FILE: bot.dfy ===
/** `ZCashDCABot.buy`: one purchase decision, from the requested budget to the updated
    ledger. The exchange's answers and the clock are parameters, and the calls the bot
    makes to the exchange are returned in order, so that what happens before any
    network call can be stated. */
module Bot {
  import opened Wrappers
  import opened Decimals
  import opened Records
  import opened Tracker
  import opened Kraken

  /** A request to the exchange: the ticker fetch, or a market buy of a quantity. */
  datatype Call = FetchTicker | MarketBuy(quantity: Dec)

  /** What the exchange reports for a market order: `filled`, `cost` and `id`. */
  datatype Fill = Fill(filled: Dec, cost: Dec, id: Option<string>)

  /** The reason `buy` answers `success: False`. */
  datatype BuyError =
    | AmountNotPositive  // the budget rounded to cents is <= 0 (`ValueError`)
    | PriceUnavailable   // the ticker fetch failed
    | PriceIsZero        // dividing by a zero price (`DivisionByZero`)
    | OrderFailed        // the order was refused or reported no usable fill

  /** The dictionary `buy` returns. */
  datatype BuyResult =
    | Simulated(purchase: PurchaseRecord, simulatedTotalZec: Dec)
    | Executed(purchase: PurchaseRecord, totalZec: Dec)
    | Failed(error: BuyError)

  datatype BuyOutcome = BuyOutcome(result: BuyResult, ledger: Ledger, calls: seq<Call>)

  /** The budget actually used: the requested amount rounded down to cents. It is
      positive, and so passes the check in `buy`, exactly when the request is at
      least one cent. */
  function Budget(amount: Dec): (b: Dec)
    ensures RoundedDown(b, amount, PriceDigits)
    ensures IsPositive(b) <==> Le(Ulp(PriceDigits), amount)
  {
    QuantizeDownBounds(amount, PriceDigits);
    CentsPositive(amount);
    QuantizeDown(amount, PriceDigits)
  }

  /** The calls `buy` may make: nothing, the ticker fetch alone, or the fetch followed
      by exactly one market order. */
  predicate WellOrdered(calls: seq<Call>) {
    || calls == []
    || calls == [FetchTicker]
    || (|calls| == 2 && calls[0] == FetchTicker && calls[1].MarketBuy?)
  }

  /** `buy(amount_eur, dry_run)`, at time `now`, with the ticker's last price (`None`
      when the fetch fails) and the exchange's answer to a market order (`None` when
      it fails). The `except` clause turns every failure into `Failed`. */
  function Buy(l: Ledger, amount: Dec, dryRun: bool, now: string,
               ticker: Option<Dec>, order: Option<Fill>): (o: BuyOutcome)
    ensures WellOrdered(o.calls)
    ensures dryRun ==> forall i | 0 <= i < |o.calls| :: !o.calls[i].MarketBuy?
    ensures !o.result.Executed? ==> o.ledger == l
    ensures o.result.Executed? <==>
              (!dryRun && IsPositive(Budget(amount)) && ticker.Some?
               && CurrentPrice(ticker.value).coef != 0 && order.Some?)
    ensures o.result.Simulated? <==>
              (dryRun && IsPositive(Budget(amount)) && ticker.Some?
               && CurrentPrice(ticker.value).coef != 0)
    ensures o.result.Failed? <==>
              (|| !IsPositive(Budget(amount)) || ticker.None?
               || CurrentPrice(ticker.value).coef == 0 || (!dryRun && order.None?))
    ensures o.calls == [] <==> o.result == Failed(AmountNotPositive)
    ensures |o.calls| == 2 <==>
              (!dryRun && IsPositive(Budget(amount)) && ticker.Some?
               && CurrentPrice(ticker.value).coef != 0)
    ensures |o.calls| == 2 ==>
              o.calls[1] == MarketBuy(CalculateZecAmount(Budget(amount), CurrentPrice(ticker.value)).value)
  {
    var eur := Budget(amount);
    if !IsPositive(eur) then BuyOutcome(Failed(AmountNotPositive), l, [])
    else match ticker
      case None => BuyOutcome(Failed(PriceUnavailable), l, [FetchTicker])
      case Some(last) =>
        var price := CurrentPrice(last);
        match CalculateZecAmount(eur, price)
        case None => BuyOutcome(Failed(PriceIsZero), l, [FetchTicker])
        case Some(zec) =>
          if dryRun then
            var p := NewRecord(now, zec, eur, price, None, true);
            BuyOutcome(Simulated(p, Add(l.totalZec, zec)), l, [FetchTicker])
          else match order
            case None => BuyOutcome(Failed(OrderFailed), l, [FetchTicker, MarketBuy(zec)])
            case Some(fill) =>
              var p := NewRecord(now, fill.filled, fill.cost,
                                 FillPrice(fill, price), fill.id, false);
              var next := AddPurchase(l, p);
              BuyOutcome(Executed(p, next.totalZec), next, [FetchTicker, MarketBuy(zec)])
  }

  /** The unit price recorded for a live buy: cost over filled, rounded down to cents,
      or the quoted price when nothing was filled. */
  function FillPrice(fill: Fill, quoted: Dec): (p: Dec)
    ensures IsPositive(fill.filled) ==> RoundedDownQuotient(p, fill.cost, fill.filled, PriceDigits)
    ensures !IsPositive(fill.filled) ==> p == quoted
  {
    if IsPositive(fill.filled) then
      QuotientDownBounds(fill.cost, fill.filled, PriceDigits);
      QuotientDown(fill.cost, fill.filled, PriceDigits)
    else
      quoted
  }

  /** An amount rounded down to cents is positive exactly when it is at least one cent. */
  lemma CentsPositive(amount: Dec)
    ensures IsPositive(QuantizeDown(amount, PriceDigits)) <==> Le(Ulp(PriceDigits), amount)
  {
    var k := Min(amount.exp, -2);
    CompareAt(Ulp(PriceDigits), amount, k);
    if amount.exp < -2 {
      var d := Pow10(-2 - amount.exp);
      assert Scaled(Ulp(PriceDigits), k) == d;
      assert Scaled(amount, k) == amount.coef;
      TruncatedPositive(amount.coef, d);
    } else {
      var p := Pow10(amount.exp + 2);
      assert Scaled(Ulp(PriceDigits), k) == 1;
      assert Scaled(amount, k) == amount.coef * p;
      MulMonotone(0, amount.coef, p);
    }
  }

  /** n / d truncated is positive exactly when n >= d. */
  lemma TruncatedPositive(n: int, d: int)
    requires d > 0
    ensures DivDown(n, d) > 0 <==> n >= d
  {
    var t := DivDown(n, d);
    if n >= 0 {
      MulMonotone(1, t, d);
      MulMonotone(1, t + 1, d);
    }
  }

  /** A budget under one cent is refused before anything is asked of the exchange,
      whatever the exchange would have answered, and the ledger is untouched. */
  lemma RejectsSubCentBudget(l: Ledger, amount: Dec, dryRun: bool, now: string,
                             ticker: Option<Dec>, order: Option<Fill>)
    requires !Le(Ulp(PriceDigits), amount)
    ensures Buy(l, amount, dryRun, now, ticker, order)
            == BuyOutcome(Failed(AmountNotPositive), l, [])
  {
  }

  /** Conversely, a budget of at least one cent always reaches the ticker fetch. */
  lemma AcceptsCentBudget(l: Ledger, amount: Dec, dryRun: bool, now: string,
                          ticker: Option<Dec>, order: Option<Fill>)
    requires Le(Ulp(PriceDigits), amount)
    ensures var o := Buy(l, amount, dryRun, now, ticker, order);
            |o.calls| >= 1 && o.calls[0] == FetchTicker
  {
  }

  /** A dry run never places an order and never changes the ledger. When it gets a
      price, it reports a purchase of the computed quantity for the whole budget at
      the quoted price, and the ledger total plus that quantity; the order answer is
      irrelevant. */
  lemma DryRunLeavesLedger(l: Ledger, amount: Dec, now: string,
                           last: Dec, order: Option<Fill>)
    requires Le(Ulp(PriceDigits), amount)
    requires IsPositive(CurrentPrice(last))
    ensures var o := Buy(l, amount, true, now, Some(last), order);
            var eur := Budget(amount);
            var price := CurrentPrice(last);
            && o.ledger == l
            && o.calls == [FetchTicker]
            && o.result.Simulated?
            && o.result == Buy(l, amount, true, now, Some(last), None).result
            && o.result.purchase.dryRun
            && o.result.purchase.orderId.None?
            && o.result.purchase.eurSpent == eur
            && o.result.purchase.pricePerZec == price
            && RoundedDownQuotient(o.result.purchase.zecBought, eur, price, ZecDigits)
            && Le(Mul(o.result.purchase.zecBought, price), eur)
            && o.result.simulatedTotalZec == Add(l.totalZec, o.result.purchase.zecBought)
  {
    var eur := Budget(amount);
    assert !IsNegative(eur);
  }

  /** A live buy records what the exchange filled, not what was asked: the quantity and
      cost are the fill's, the unit price is cost over filled in cents (the quoted
      price when nothing filled), and the ledger gains exactly that record. */
  lemma LiveBuyRecordsFill(l: Ledger, amount: Dec, now: string, last: Dec, fill: Fill)
    requires Le(Ulp(PriceDigits), amount)
    requires CurrentPrice(last).coef != 0
    ensures var o := Buy(l, amount, false, now, Some(last), Some(fill));
            var zec := CalculateZecAmount(Budget(amount), CurrentPrice(last)).value;
            && o.result.Executed?
            && o.calls == [FetchTicker, MarketBuy(zec)]
            && o.result.purchase.zecBought == fill.filled
            && o.result.purchase.eurSpent == fill.cost
            && o.result.purchase.orderId == fill.id
            && !o.result.purchase.dryRun
            && o.result.purchase.date == now
            && (IsPositive(fill.filled) ==>
                  RoundedDownQuotient(o.result.purchase.pricePerZec, fill.cost, fill.filled, PriceDigits))
            && (!IsPositive(fill.filled) ==> o.result.purchase.pricePerZec == CurrentPrice(last))
            && o.ledger == AddPurchase(l, o.result.purchase)
            && o.result.totalZec == Add(l.totalZec, fill.filled)
  {
  }

  /** Whatever happens, a ledger whose totals match its records still does. */
  lemma BuyPreservesConsistency(l: Ledger, amount: Dec, dryRun: bool, now: string,
                                ticker: Option<Dec>, order: Option<Fill>)
    requires Consistent(l)
    ensures Consistent(Buy(l, amount, dryRun, now, ticker, order).ledger)
  {
    var o := Buy(l, amount, dryRun, now, ticker, order);
    if o.result.Executed? {
      AddPurchaseConsistent(l, o.result.purchase);
    }
  }

  /** A live buy of 50 EUR when the last price is 33.335 EUR/ZEC quotes 33.33 and asks
      for 1.50015001 ZEC; when the exchange fills 1.5 ZEC for 49.99 EUR, the ledger
      records 49.99 / 1.5 = 33.32 EUR/ZEC. */
  lemma LiveBuyExample(now: string)
    ensures var o := Buy(EmptyLedger, Dec(50, 0), false, now, Some(Dec(33335, -3)),
                         Some(Fill(Dec(15, -1), Dec(4999, -2), Some("OABC"))));
            && o.calls == [FetchTicker, MarketBuy(Dec(150015001, -8))]
            && o.result == Executed(PurchaseRecord(now, Dec(15, -1), Dec(4999, -2),
                                                   Dec(3332, -2), Some("OABC"), false),
                                    Dec(15, -1))
            && o.ledger.totalEurSpent == Dec(4999, -2)
  {
    BudgetExample();
    QuoteExample();
    OrderSizeExample();
    FillPriceExample();
    AddZero(Dec(15, -1));
    AddZero(Dec(4999, -2));
    LiveBuySteps(EmptyLedger, Dec(50, 0), now, Dec(33335, -3),
                 Fill(Dec(15, -1), Dec(4999, -2), Some("OABC")),
                 Dec(5000, -2), Dec(3333, -2), Dec(150015001, -8));
  }

  /** The live path of `buy`, once the budget, the quote and the quantity are known. */
  lemma LiveBuySteps(l: Ledger, amount: Dec, now: string, last: Dec, fill: Fill,
                     eur: Dec, price: Dec, zec: Dec)
    requires Budget(amount) == eur && IsPositive(eur)
    requires CurrentPrice(last) == price
    requires CalculateZecAmount(eur, price) == Some(zec)
    ensures var p := PurchaseRecord(now, fill.filled, fill.cost, FillPrice(fill, price),
                                    fill.id, false);
            Buy(l, amount, false, now, Some(last), Some(fill))
              == BuyOutcome(Executed(p, Add(l.totalZec, fill.filled)), AddPurchase(l, p),
                            [FetchTicker, MarketBuy(zec)])
  {
  }

  lemma BudgetExample()
    ensures Budget(Dec(50, 0)) == Dec(5000, -2)
  {
    assert Pow10(2) == 100;
  }

  lemma QuoteExample()
    ensures CurrentPrice(Dec(33335, -3)) == Dec(3333, -2)
  {
    assert Pow10(1) == 10;
  }

  lemma OrderSizeExample()
    ensures CalculateZecAmount(Dec(5000, -2), Dec(3333, -2)) == Some(Dec(150015001, -8))
  {
    var eur, price, zec := Dec(5000, -2), Dec(3333, -2), Dec(150015001, -8);
    assert RoundedDownQuotient(zec, eur, price, ZecDigits) by {
      assert Pow10(0) == 1 && Pow10(8) == 100000000;
      CompareAt(Mul(zec, price), eur, -10);
      CompareAt(eur, Mul(Add(zec, Ulp(ZecDigits)), price), -10);
    }
    ZecAmountUnique(eur, price, zec);
  }

  lemma FillPriceExample()
    ensures FillPrice(Fill(Dec(15, -1), Dec(4999, -2), Some("OABC")), Dec(3333, -2))
            == Dec(3332, -2)
  {
    var fill := Fill(Dec(15, -1), Dec(4999, -2), Some("OABC"));
    var avg := Dec(3332, -2);
    assert RoundedDownQuotient(avg, fill.cost, fill.filled, PriceDigits) by {
      assert Pow10(0) == 1 && Pow10(1) == 10;
      CompareAt(Mul(avg, fill.filled), fill.cost, -3);
      CompareAt(fill.cost, Mul(Add(avg, Ulp(PriceDigits)), fill.filled), -3);
    }
    RoundedDownQuotientUnique(avg, FillPrice(fill, Dec(3333, -2)), fill.cost, fill.filled,
                              PriceDigits);
  }
}

=== FILE: decimal_text.dfy ===
/** The text form of a decimal: `str(Decimal)` and `Decimal(str)`.

    The ledger file stores every decimal as the string `str()` gives, and reads it
    back with the `Decimal` constructor. `FormatDecimal` follows Python's
    to-scientific-string rule (plain notation unless the exponent is positive or the
    number is smaller than 1E-6); `ParseDecimal` accepts an optional sign, digits
    with an optional point, and an optional `e`/`E` exponent. */
module DecimalText {
  import opened Wrappers
  import opened Decimals

  predicate IsDigit(c: char) {
    '0' <= c <= '9'
  }

  predicate AllDigits(s: string) {
    forall i | 0 <= i < |s| :: IsDigit(s[i])
  }

  function DigitValue(c: char): nat
    requires IsDigit(c)
  {
    c as int - '0' as int
  }

  function DigitChar(n: nat): (c: char)
    requires n < 10
    ensures IsDigit(c) && DigitValue(c) == n
  {
    ('0' as int + n) as char
  }

  /** The number a string of digits spells, leading zeros allowed. */
  function DigitsValue(s: string): nat
    requires AllDigits(s)
  {
    if |s| == 0 then 0 else DigitsValue(s[..|s| - 1]) * 10 + DigitValue(s[|s| - 1])
  }

  /** The shortest digit string of n, "0" for zero (a Decimal's coefficient digits). */
  function NatDigits(n: nat): (s: string)
    ensures |s| >= 1 && AllDigits(s)
  {
    if n < 10 then [DigitChar(n)] else NatDigits(n / 10) + [DigitChar(n % 10)]
  }

  lemma {:induction false} NatDigitsValue(n: nat)
    ensures DigitsValue(NatDigits(n)) == n
  {
    if n >= 10 {
      var s := NatDigits(n);
      assert s[..|s| - 1] == NatDigits(n / 10);
      NatDigitsValue(n / 10);
    }
  }

  function Zeros(k: nat): (s: string)
    ensures |s| == k && AllDigits(s)
  {
    seq(k, i => '0')
  }

  /** Leading zeros do not change the number a digit string spells. */
  lemma {:induction false} LeadingZerosValue(k: nat, s: string)
    requires AllDigits(s)
    ensures AllDigits(Zeros(k) + s)
    ensures DigitsValue(Zeros(k) + s) == DigitsValue(s)
    decreases |s|
  {
    var z := Zeros(k) + s;
    assert AllDigits(z) by {
      forall i | 0 <= i < |z|
        ensures IsDigit(z[i])
      {
        if i < k { assert z[i] == Zeros(k)[i]; } else { assert z[i] == s[i - k]; }
      }
    }
    if |s| == 0 {
      assert z == Zeros(k);
      ZerosValue(k);
    } else {
      assert z[..|z| - 1] == Zeros(k) + s[..|s| - 1];
      LeadingZerosValue(k, s[..|s| - 1]);
    }
  }

  lemma ZeroPrefix(k: nat, s: string)
    ensures "0" + (Zeros(k) + s) == Zeros(k + 1) + s
  {
    assert "0" + Zeros(k) == Zeros(k + 1);
  }

  lemma {:induction false} ZerosValue(k: nat)
    ensures DigitsValue(Zeros(k)) == 0
  {
    if k > 0 {
      assert Zeros(k)[..k - 1] == Zeros(k - 1);
      ZerosValue(k - 1);
    }
  }

  // ----- formatting -----

  /** Digits with the point placed for exponent exp <= 0: `12.34`, `1234`, `0.001234`. */
  function PlainBody(digits: string, exp: int): string
    requires exp <= 0 && |digits| >= 1
  {
    var point := |digits| + exp;
    if exp == 0 then digits
    else if point > 0 then digits[..point] + "." + digits[point..]
    else "0" + "." + (Zeros(-point) + digits)
  }

  /** One digit before the point and an explicit signed exponent: `1.234E+5`, `1E-7`. */
  function ScientificBody(digits: string, adjusted: int): string
    requires |digits| >= 1
  {
    LeadingDigit(digits) + "E" + ExponentText(adjusted)
  }

  /** The first digit, then a point and the others when there are others. */
  function LeadingDigit(digits: string): string
    requires |digits| >= 1
  {
    if |digits| > 1 then digits[..1] + "." + digits[1..] else digits
  }

  /** Python's `"%+d"`: the exponent with an explicit sign. */
  function ExponentText(n: int): string {
    (if n >= 0 then "+" else "-") + NatDigits(Abs(n))
  }

  /** `str(d)` for a finite Decimal d. */
  function FormatDecimal(d: Dec): string {
    (if d.coef < 0 then "-" else "") + UnsignedText(Abs(d.coef), d.exp)
  }

  /** The text of magnitude * 10^exp: plain when the exponent is not positive and
      the number is at least 1E-6 in size, scientific otherwise. */
  function UnsignedText(magnitude: nat, exp: int): string {
    var digits := NatDigits(magnitude);
    var adjusted := exp + |digits| - 1;
    if exp <= 0 && adjusted >= -6 then PlainBody(digits, exp)
    else ScientificBody(digits, adjusted)
  }

  // ----- parsing -----

  predicate IsExpMark(c: char) {
    c == 'e' || c == 'E'
  }

  /** Position of the first exponent mark, or |s| when there is none. */
  function ExpIndex(s: string): (i: nat)
    ensures i <= |s|
    ensures forall j | 0 <= j < i :: !IsExpMark(s[j])
    ensures i < |s| ==> IsExpMark(s[i])
  {
    if |s| == 0 || IsExpMark(s[0]) then 0 else 1 + ExpIndex(s[1..])
  }

  /** Position of the first decimal point, or |s| when there is none. */
  function PointIndex(s: string): (i: nat)
    ensures i <= |s|
    ensures forall j | 0 <= j < i :: s[j] != '.'
    ensures i < |s| ==> s[i] == '.'
  {
    if |s| == 0 || s[0] == '.' then 0 else 1 + PointIndex(s[1..])
  }

  /** A leading `-` or `+`, and what follows it. */
  function SplitSign(s: string): (bool, string) {
    if |s| > 0 && (s[0] == '-' || s[0] == '+') then (s[0] == '-', s[1..]) else (false, s)
  }

  /** A signed integer exponent: `+5`, `-12`, `3`. */
  function ParseExponent(s: string): Option<int> {
    var (negative, digits) := SplitSign(s);
    if |digits| == 0 || !AllDigits(digits) then None
    else
      var magnitude: int := DigitsValue(digits);
      Some(if negative then -magnitude else magnitude)
  }

  /** What an unsigned numeral spells: a coefficient magnitude and an exponent, or
      nothing when the text is not a numeral. */
  datatype Numeral = Invalid | Numeral(magnitude: nat, exponent: int)

  /** Digits with an optional point, scaled by a given exponent. */
  function ParseMantissa(mantissa: string, exponent: int): Numeral {
    var p := PointIndex(mantissa);
    var whole := mantissa[..p];
    var fraction := if p < |mantissa| then mantissa[p + 1..] else "";
    if |whole + fraction| == 0 || !AllDigits(whole + fraction) then Invalid
    else Numeral(DigitsValue(whole + fraction), exponent - |fraction|)
  }

  /** An unsigned decimal numeral, with or without an exponent part. */
  function ParseUnsigned(body: string): Numeral {
    var e := ExpIndex(body);
    if e == |body| then ParseMantissa(body, 0)
    else
      match ParseExponent(body[e + 1..])
      case None => Invalid
      case Some(x) => ParseMantissa(body[..e], x)
  }

  /** `Decimal(s)`: None where Python raises `InvalidOperation`. */
  function ParseDecimal(s: string): Option<Dec> {
    var (negative, body) := SplitSign(s);
    match ParseUnsigned(body)
    case Invalid => None
    case Numeral(magnitude, e) =>
      var c: int := magnitude;
      Some(Dec(if negative then -c else c, e))
  }

  // ----- round trip -----

  predicate NoExpMark(s: string) {
    forall j | 0 <= j < |s| :: !IsExpMark(s[j])
  }

  lemma {:induction false} ExpIndexAt(a: string, b: string)
    requires NoExpMark(a)
    requires |b| == 0 || IsExpMark(b[0])
    ensures ExpIndex(a + b) == |a|
    decreases |a|
  {
    if |a| == 0 {
      assert a + b == b;
    } else {
      assert (a + b)[0] == a[0];
      assert (a + b)[1..] == a[1..] + b;
      ExpIndexAt(a[1..], b);
    }
  }

  lemma {:induction false} PointIndexAt(a: string, b: string)
    requires forall j | 0 <= j < |a| :: a[j] != '.'
    requires |b| == 0 || b[0] == '.'
    ensures PointIndex(a + b) == |a|
    decreases |a|
  {
    if |a| == 0 {
      assert a + b == b;
    } else {
      assert (a + b)[0] == a[0];
      assert (a + b)[1..] == a[1..] + b;
      PointIndexAt(a[1..], b);
    }
  }

  lemma ParseExponentFormat(n: int)
    ensures ParseExponent(ExponentText(n)) == Some(n)
  {
    var s := ExponentText(n);
    assert SplitSign(s).1 == NatDigits(Abs(n));
    NatDigitsValue(Abs(n));
  }

  lemma NoMarksInDigits(s: string)
    requires AllDigits(s)
    ensures NoExpMark(s)
    ensures forall j | 0 <= j < |s| :: s[j] != '.'
  {
  }

  lemma MantissaWithoutPoint(digits: string, x: int)
    requires |digits| >= 1 && AllDigits(digits)
    ensures ParseMantissa(digits, x) == Numeral(DigitsValue(digits), x)
  {
    NoMarksInDigits(digits);
    assert PointIndex(digits) == |digits| by {
      PointIndexAt(digits, "");
      assert digits + "" == digits;
    }
    var whole := digits[..|digits|];
    assert whole == digits;
    assert whole + "" == digits;
    var r := ParseMantissa(digits, x);
    assert r.Numeral? && r.magnitude == DigitsValue(digits) && r.exponent == x;
  }

  lemma AllDigitsConcat(a: string, b: string)
    requires AllDigits(a) && AllDigits(b)
    ensures AllDigits(a + b)
  {
    forall i | 0 <= i < |a + b|
      ensures IsDigit((a + b)[i])
    {
      if i < |a| { assert (a + b)[i] == a[i]; } else { assert (a + b)[i] == b[i - |a|]; }
    }
  }

  lemma PointedNoExpMark(a: string, b: string, m: string)
    requires AllDigits(a) && AllDigits(b)
    requires m == a + "." + b
    ensures NoExpMark(m)
  {
    NoMarksInDigits(a);
    NoMarksInDigits(b);
    NoExpMarkConcat(a, ".");
    NoExpMarkConcat(a + ".", b);
  }

  lemma MantissaWithPoint(a: string, b: string, x: int, m: string)
    requires |a| >= 1 && AllDigits(a) && AllDigits(b)
    requires m == a + "." + b
    ensures AllDigits(a + b) && NoExpMark(m)
    ensures ParseMantissa(m, x) == Numeral(DigitsValue(a + b), x - |b|)
  {
    PointedNoExpMark(a, b, m);
    AllDigitsConcat(a, b);
    assert m == a + ("." + b);
    PointIndexAt(a, "." + b);
    assert m[..|a|] == a;
    assert m[|a| + 1..] == b;
  }

  lemma SliceJoin(s: string, i: nat)
    requires i <= |s|
    ensures s[..i] + s[i..] == s
  {
  }

  /** Digits with a point inserted after the first `point` of them. */
  lemma MantissaAt(digits: string, point: nat, m: string, x: int)
    requires 0 < point <= |digits| && AllDigits(digits)
    requires m == digits[..point] + "." + digits[point..]
    ensures NoExpMark(m)
    ensures ParseMantissa(m, x) == Numeral(DigitsValue(digits), x - (|digits| - point))
  {
    SliceJoin(digits, point);
    MantissaWithPoint(digits[..point], digits[point..], x, m);
  }

  lemma UnsignedWithoutExponent(body: string)
    requires NoExpMark(body)
    ensures ParseUnsigned(body) == ParseMantissa(body, 0)
  {
    ExpIndexAt(body, "");
    assert body + "" == body;
  }

  lemma UnsignedWithExponent(mantissa: string, expText: string)
    requires NoExpMark(mantissa)
    ensures ParseUnsigned(mantissa + "E" + expText)
         == match ParseExponent(expText)
            case None => Invalid
            case Some(x) => ParseMantissa(mantissa, x)
  {
    var body := mantissa + "E" + expText;
    assert body == mantissa + ("E" + expText);
    ExpIndexAt(mantissa, "E" + expText);
    assert body[..|mantissa|] == mantissa;
    assert body[|mantissa| + 1..] == expText;
  }

  lemma NoExpMarkConcat(a: string, b: string)
    requires NoExpMark(a) && NoExpMark(b)
    ensures NoExpMark(a + b)
  {
    forall j | 0 <= j < |a + b|
      ensures !IsExpMark((a + b)[j])
    {
      if j < |a| { assert (a + b)[j] == a[j]; } else { assert (a + b)[j] == b[j - |a|]; }
    }
  }

  lemma ParsePlainInteger(digits: string)
    requires |digits| >= 1 && AllDigits(digits)
    ensures ParseUnsigned(PlainBody(digits, 0)) == Numeral(DigitsValue(digits), 0)
  {
    NoMarksInDigits(digits);
    UnsignedWithoutExponent(digits);
    MantissaWithoutPoint(digits, 0);
  }

  /** `123.45`: digits on both sides of the point. */
  lemma ParsePointAt(digits: string, point: nat, body: string)
    requires 0 < point <= |digits| && AllDigits(digits)
    requires body == digits[..point] + "." + digits[point..]
    ensures ParseUnsigned(body) == Numeral(DigitsValue(digits), point - |digits|)
  {
    MantissaAt(digits, point, body, 0);
    UnsignedWithoutExponent(body);
  }

  lemma ParsePlainSplit(digits: string, exp: int)
    requires exp < 0 && |digits| + exp > 0 && AllDigits(digits)
    ensures ParseUnsigned(PlainBody(digits, exp)) == Numeral(DigitsValue(digits), exp)
  {
    ParsePointAt(digits, |digits| + exp, PlainBody(digits, exp));
  }

  lemma ParseZeroPoint(rest: string, body: string)
    requires AllDigits(rest)
    requires body == "0" + "." + rest
    ensures ParseUnsigned(body) == Numeral(DigitsValue("0" + rest), -|rest|)
  {
    MantissaWithPoint("0", rest, 0, body);
    UnsignedWithoutExponent(body);
  }

  /** Zeros in front of a digit string change neither its digits nor its value. */
  lemma ZeroPaddedValue(k: nat, digits: string)
    requires AllDigits(digits)
    ensures AllDigits(Zeros(k) + digits)
    ensures DigitsValue("0" + (Zeros(k) + digits)) == DigitsValue(digits)
  {
    LeadingZerosValue(k, digits);
    ZeroPrefix(k, digits);
    LeadingZerosValue(k + 1, digits);
  }

  /** `0.000ddd`: the zeros after the point only move the exponent. */
  lemma ParseZeroPadded(k: nat, digits: string, body: string)
    requires AllDigits(digits)
    requires body == "0" + "." + (Zeros(k) + digits)
    ensures ParseUnsigned(body) == Numeral(DigitsValue(digits), -(k + |digits|))
  {
    ZeroPaddedValue(k, digits);
    ParseZeroPoint(Zeros(k) + digits, body);
  }

  lemma ParsePlainSmall(digits: string, exp: int)
    requires exp < 0 && |digits| + exp <= 0 && |digits| >= 1 && AllDigits(digits)
    ensures ParseUnsigned(PlainBody(digits, exp)) == Numeral(DigitsValue(digits), exp)
  {
    ParseZeroPadded(-(|digits| + exp), digits, PlainBody(digits, exp));
  }

  lemma ParsePlainBody(digits: string, exp: int)
    requires exp <= 0 && |digits| >= 1 && AllDigits(digits)
    ensures ParseUnsigned(PlainBody(digits, exp)) == Numeral(DigitsValue(digits), exp)
  {
    if exp == 0 {
      ParsePlainInteger(digits);
    } else if |digits| + exp > 0 {
      ParsePlainSplit(digits, exp);
    } else {
      ParsePlainSmall(digits, exp);
    }
  }

  lemma ScientificMantissaLong(digits: string, x: int)
    requires |digits| > 1 && AllDigits(digits)
    ensures NoExpMark(LeadingDigit(digits))
    ensures ParseMantissa(LeadingDigit(digits), x) == Numeral(DigitsValue(digits), x - (|digits| - 1))
  {
    MantissaAt(digits, 1, LeadingDigit(digits), x);
  }

  lemma ScientificMantissa(digits: string, x: int)
    requires |digits| >= 1 && AllDigits(digits)
    ensures NoExpMark(LeadingDigit(digits))
    ensures ParseMantissa(LeadingDigit(digits), x) == Numeral(DigitsValue(digits), x - (|digits| - 1))
  {
    if |digits| > 1 {
      ScientificMantissaLong(digits, x);
    } else {
      NoMarksInDigits(digits);
      MantissaWithoutPoint(digits, x);
      assert LeadingDigit(digits) == digits;
    }
  }

  lemma ParseScientificBody(digits: string, adjusted: int)
    requires |digits| >= 1 && AllDigits(digits)
    ensures ParseUnsigned(ScientificBody(digits, adjusted))
         == Numeral(DigitsValue(digits), adjusted - (|digits| - 1))
  {
    ScientificMantissa(digits, adjusted);
    UnsignedWithExponent(LeadingDigit(digits), ExponentText(adjusted));
    ParseExponentFormat(adjusted);
  }

  lemma UnsignedTextHead(magnitude: nat, exp: int)
    ensures |UnsignedText(magnitude, exp)| > 0 && IsDigit(UnsignedText(magnitude, exp)[0])
  {
    var digits := NatDigits(magnitude);
    var adjusted := exp + |digits| - 1;
    var t := UnsignedText(magnitude, exp);
    if exp <= 0 && adjusted >= -6 {
      var point := |digits| + exp;
      if exp == 0 {
        assert t == digits;
      } else if point > 0 {
        assert t == digits[..point] + ("." + digits[point..]);
        assert t[0] == digits[0];
      } else {
        assert t[0] == '0';
      }
    } else {
      assert t == LeadingDigit(digits) + ("E" + ExponentText(adjusted));
      if |digits| > 1 {
        assert LeadingDigit(digits) == digits[..1] + ("." + digits[1..]);
      }
      assert t[0] == LeadingDigit(digits)[0] == digits[0];
    }
  }

  lemma ParseUnsignedText(magnitude: nat, exp: int)
    ensures |UnsignedText(magnitude, exp)| > 0 && IsDigit(UnsignedText(magnitude, exp)[0])
    ensures ParseUnsigned(UnsignedText(magnitude, exp)) == Numeral(magnitude, exp)
  {
    UnsignedTextHead(magnitude, exp);
    var digits := NatDigits(magnitude);
    var adjusted := exp + |digits| - 1;
    NatDigitsValue(magnitude);
    if exp <= 0 && adjusted >= -6 {
      assert UnsignedText(magnitude, exp) == PlainBody(digits, exp);
      ParsePlainBody(digits, exp);
    } else {
      assert UnsignedText(magnitude, exp) == ScientificBody(digits, adjusted);
      ParseScientificBody(digits, adjusted);
    }
  }

  lemma SplitSignOf(negative: bool, body: string, s: string)
    requires |body| > 0 && IsDigit(body[0])
    requires s == (if negative then "-" else "") + body
    ensures SplitSign(s) == (negative, body)
  {
    if negative {
      assert s[1..] == body;
    } else {
      assert s == body;
    }
  }

  lemma ParseSigned(negative: bool, body: string)
    requires |body| > 0 && IsDigit(body[0]) && ParseUnsigned(body).Numeral?
    ensures var c: int := ParseUnsigned(body).magnitude;
            var signed := if negative then -c else c;
            ParseDecimal((if negative then "-" else "") + body)
              == Some(Dec(signed, ParseUnsigned(body).exponent))
  {
    SplitSignOf(negative, body, (if negative then "-" else "") + body);
  }

  /** `Decimal(str(d)) == d` exactly, coefficient and exponent: the ledger file keeps
      every decimal without loss. */
  lemma FormatParseRoundTrip(d: Dec)
    ensures ParseDecimal(FormatDecimal(d)) == Some(d)
  {
    ParseUnsignedText(Abs(d.coef), d.exp);
    ParseSigned(d.coef < 0, UnsignedText(Abs(d.coef), d.exp));
  }
}

=== FILE: decimals.dfy ===
/** Exact decimal arithmetic as the bot uses Python's `decimal.Decimal`.

    A decimal is kept as Python keeps it: an integer coefficient and a base-ten
    exponent, standing for coef * 10^exp. The exponent is part of the value's
    identity (`1.5` and `1.50` are equal numbers but print differently), so two
    `Dec`s are equal only when both parts agree; numeric comparison is `Le`/`Lt`. */
module Decimals {

  datatype Dec = Dec(coef: int, exp: int)

  /** `Decimal('0')`. */
  const Zero: Dec := Dec(0, 0)

  function Min(a: int, b: int): int {
    if a <= b then a else b
  }

  function Abs(n: int): nat {
    if n < 0 then -n else n
  }

  function Pow10(n: nat): (p: nat)
    ensures p >= 1
  {
    if n == 0 then 1 else 10 * Pow10(n - 1)
  }

  lemma {:induction false} Pow10Add(a: nat, b: nat)
    ensures Pow10(a + b) == Pow10(a) * Pow10(b)
    decreases a
  {
    if a > 0 {
      Pow10Add(a - 1, b);
      assert Pow10(a + b) == 10 * Pow10(a - 1 + b);
      MulAssoc(10, Pow10(a - 1), Pow10(b));
    }
  }

  lemma MulAssoc(x: int, y: int, z: int)
    ensures x * (y * z) == (x * y) * z
  {
  }

  lemma MulMonotone(x: int, y: int, p: int)
    requires p > 0
    ensures x <= y <==> x * p <= y * p
    ensures x < y <==> x * p < y * p
  {
    assert y * p - x * p == (y - x) * p;
  }

  /** The integer d's value becomes when multiplied by 10^-k, for any k at or below
      d's own exponent: d's coefficient with exp - k zeros appended. */
  function Scaled(d: Dec, k: int): int
    requires k <= d.exp
  {
    d.coef * Pow10(d.exp - k)
  }

  lemma ScaledRescale(d: Dec, j: int, k: int)
    requires j <= k <= d.exp
    ensures Scaled(d, j) == Scaled(d, k) * Pow10(k - j)
  {
    Pow10Add(d.exp - k, k - j);
    assert d.exp - j == (d.exp - k) + (k - j);
    MulAssoc(d.coef, Pow10(d.exp - k), Pow10(k - j));
  }

  /** Numeric order, as Python compares Decimals: by value, whatever the exponents. */
  predicate Le(a: Dec, b: Dec) {
    var m := Min(a.exp, b.exp);
    Scaled(a, m) <= Scaled(b, m)
  }

  predicate Lt(a: Dec, b: Dec) {
    var m := Min(a.exp, b.exp);
    Scaled(a, m) < Scaled(b, m)
  }

  /** Numeric equality (Python's `==` on Decimals). */
  predicate SameValue(a: Dec, b: Dec) {
    var m := Min(a.exp, b.exp);
    Scaled(a, m) == Scaled(b, m)
  }

  /** Comparing at any common exponent agrees with comparing at the smallest one. */
  lemma CompareAt(a: Dec, b: Dec, k: int)
    requires k <= a.exp && k <= b.exp
    ensures Le(a, b) <==> Scaled(a, k) <= Scaled(b, k)
    ensures Lt(a, b) <==> Scaled(a, k) < Scaled(b, k)
    ensures SameValue(a, b) <==> Scaled(a, k) == Scaled(b, k)
  {
    var m := Min(a.exp, b.exp);
    ScaledRescale(a, k, m);
    ScaledRescale(b, k, m);
    MulMonotone(Scaled(a, m), Scaled(b, m), Pow10(m - k));
  }

  predicate IsNegative(a: Dec) {
    a.coef < 0
  }

  predicate IsPositive(a: Dec) {
    a.coef > 0
  }

  function Neg(a: Dec): Dec {
    Dec(-a.coef, a.exp)
  }

  /** One unit in the k-th fractional place: `Decimal('0.01')` for k = 2. */
  function Ulp(k: int): Dec {
    Dec(1, -k)
  }

  /** Exact sum, as Python's Decimal addition computes it: the result carries the
      smaller of the two exponents. */
  function Add(a: Dec, b: Dec): Dec {
    var m := Min(a.exp, b.exp);
    Dec(Scaled(a, m) + Scaled(b, m), m)
  }

  /** `Decimal('0') + d` is d itself when d has no positive exponent. */
  lemma AddZero(d: Dec)
    requires d.exp <= 0
    ensures Add(Zero, d) == d
  {
    assert Scaled(Zero, d.exp) == 0;
    assert Scaled(d, d.exp) == d.coef;
  }

  /** Exact product, as Python's Decimal multiplication computes it. */
  function Mul(a: Dec, b: Dec): Dec {
    Dec(a.coef * b.coef, a.exp + b.exp)
  }

  /** The sum has the finer of the two exponents and, at any common exponent, its
      value is the sum of the values. */
  lemma AddValue(a: Dec, b: Dec, k: int)
    requires k <= a.exp && k <= b.exp
    ensures Add(a, b).exp == Min(a.exp, b.exp)
    ensures Scaled(Add(a, b), k) == Scaled(a, k) + Scaled(b, k)
  {
    var m := Min(a.exp, b.exp);
    ScaledRescale(a, k, m);
    ScaledRescale(b, k, m);
    assert (Scaled(a, m) + Scaled(b, m)) * Pow10(m - k)
        == Scaled(a, m) * Pow10(m - k) + Scaled(b, m) * Pow10(m - k);
  }

  lemma AddComm(a: Dec, b: Dec)
    ensures Add(a, b) == Add(b, a)
  {
  }

  /** Exact addition is associative including the exponent of the result, so a
      running total does not depend on how the additions were grouped. */
  lemma AddAssoc(a: Dec, b: Dec, c: Dec)
    ensures Add(Add(a, b), c) == Add(a, Add(b, c))
  {
    var m := Min(Min(a.exp, b.exp), c.exp);
    AddValue(a, b, m);
    AddValue(b, c, m);
    AddValue(Add(a, b), c, m);
    AddValue(a, Add(b, c), m);
  }

  /** Sum of a column of decimals: the first plus the sum of the rest, the empty sum
      being `Decimal('0')`. */
  function Total(ds: seq<Dec>): Dec {
    if |ds| == 0 then Zero else Add(ds[0], Total(ds[1..]))
  }

  /** Adding one more entry to a column adds it to the total; this is what makes a
      running total kept by repeated `+=` equal the column's sum. */
  lemma {:induction false} TotalSnoc(ds: seq<Dec>, d: Dec)
    ensures Total(ds + [d]) == Add(Total(ds), d)
    decreases |ds|
  {
    if |ds| == 0 {
      assert ds + [d] == [d];
      assert Total([d]) == Add(d, Zero);
      AddComm(d, Zero);
    } else {
      assert (ds + [d])[1..] == ds[1..] + [d];
      TotalSnoc(ds[1..], d);
      AddAssoc(ds[0], Total(ds[1..]), d);
    }
  }

  /** Integer division that rounds toward zero (`ROUND_DOWN`), d positive. */
  function DivDown(n: int, d: int): (t: int)
    requires d > 0
    ensures n >= 0 ==> t >= 0 && t * d <= n < (t + 1) * d
    ensures n < 0 ==> t <= 0 && (t - 1) * d < n <= t * d
  {
    if n >= 0 then
      DivBracket(n, d);
      n / d
    else
      DivBracket(-n, d);
      var q := (-n) / d;
      assert (-q) * d == -(q * d) && (-q - 1) * d == -((q + 1) * d);
      -q
  }

  lemma DivBracket(n: nat, d: int)
    requires d > 0
    ensures n / d >= 0 && (n / d) * d <= n < (n / d + 1) * d
  {
    var q, r := n / d, n % d;
    assert n == q * d + r && 0 <= r < d;
    assert (q + 1) * d == q * d + d;
  }

  /** The two integers N, D (D > 0) with x / y * 10^k == N / D, for a positive y. */
  function QuotientTerms(x: Dec, y: Dec, k: int): (nd: (int, int))
    requires y.coef > 0
    ensures nd.1 > 0
  {
    if x.exp + k >= y.exp then (x.coef * Pow10(x.exp + k - y.exp), y.coef)
    else (x.coef, y.coef * Pow10(y.exp - x.exp - k))
  }

  /** `(x / y).quantize(Ulp(k), rounding=ROUND_DOWN)` with the division taken exactly:
      the quotient truncated toward zero to k fractional digits. */
  function QuotientDown(x: Dec, y: Dec, k: int): (q: Dec)
    requires y.coef != 0
    ensures q.exp == -k
    decreases if y.coef < 0 then 1 else 0
  {
    if y.coef < 0 then QuotientDown(Neg(x), Neg(y), k)
    else
      var nd := QuotientTerms(x, y, k);
      Dec(DivDown(nd.0, nd.1), -k)
  }

  /** q is x / y rounded toward zero to k fractional digits, for y > 0: q has k
      fractional digits, and x lies in [q*y, (q+ulp)*y) when x >= 0, in
      ((q-ulp)*y, q*y] when x < 0. Exactly one such q exists. */
  predicate RoundedDownQuotient(q: Dec, x: Dec, y: Dec, k: int) {
    && q.exp == -k
    && (!IsNegative(x) ==> Le(Mul(q, y), x) && Lt(x, Mul(Add(q, Ulp(k)), y)))
    && (IsNegative(x) ==> Lt(Mul(Add(q, Neg(Ulp(k))), y), x) && Le(x, Mul(q, y)))
  }

  /** x rounded toward zero to k fractional digits. */
  predicate RoundedDown(r: Dec, x: Dec, k: int) {
    && r.exp == -k
    && (!IsNegative(x) ==> Le(r, x) && Lt(x, Add(r, Ulp(k))))
    && (IsNegative(x) ==> Lt(Add(r, Neg(Ulp(k))), x) && Le(x, r))
  }

  /** Multiplying s units of the k-th fractional place by y and comparing with x is
      comparing s * D with N. */
  lemma QuotientScale(x: Dec, y: Dec, k: int, s: int)
    requires y.coef > 0
    ensures var m := Min(y.exp - k, x.exp);
            var nd := QuotientTerms(x, y, k);
            && m <= Mul(Dec(s, -k), y).exp
            && Scaled(Mul(Dec(s, -k), y), m) == s * nd.1
            && Scaled(x, m) == nd.0
  {
    var m := Min(y.exp - k, x.exp);
    if x.exp + k < y.exp {
      assert m == x.exp;
      MulAssoc(s, y.coef, Pow10(y.exp - x.exp - k));
    }
  }

  lemma AddUlp(t: int, k: int)
    ensures Add(Dec(t, -k), Ulp(k)) == Dec(t + 1, -k)
    ensures Add(Dec(t, -k), Neg(Ulp(k))) == Dec(t - 1, -k)
  {
  }

  lemma QuotientDownBounds(x: Dec, y: Dec, k: int)
    requires y.coef > 0
    ensures RoundedDownQuotient(QuotientDown(x, y, k), x, y, k)
  {
    var nd := QuotientTerms(x, y, k);
    var t := DivDown(nd.0, nd.1);
    var q := QuotientDown(x, y, k);
    assert q == Dec(t, -k);
    var m := Min(y.exp - k, x.exp);
    AddUlp(t, k);
    QuotientScale(x, y, k, t);
    QuotientScale(x, y, k, t + 1);
    QuotientScale(x, y, k, t - 1);
    CompareAt(Mul(q, y), x, m);
    CompareAt(Mul(Dec(t + 1, -k), y), x, m);
    CompareAt(Mul(Dec(t - 1, -k), y), x, m);
    CompareAt(x, Mul(Dec(t + 1, -k), y), m);
    CompareAt(x, Mul(q, y), m);
    assert IsNegative(x) <==> nd.0 < 0;
  }

  /** The rounded-down quotient property, restated on the integers N and D. */
  lemma RoundedDownQuotientTerms(q: Dec, x: Dec, y: Dec, k: int)
    requires y.coef > 0
    requires RoundedDownQuotient(q, x, y, k)
    ensures var nd := QuotientTerms(x, y, k);
            && (nd.0 >= 0 ==> q.coef * nd.1 <= nd.0 < (q.coef + 1) * nd.1)
            && (nd.0 < 0 ==> (q.coef - 1) * nd.1 < nd.0 <= q.coef * nd.1)
  {
    var m := Min(y.exp - k, x.exp);
    var t := q.coef;
    assert q == Dec(t, -k);
    AddUlp(t, k);
    QuotientScale(x, y, k, t);
    QuotientScale(x, y, k, t + 1);
    QuotientScale(x, y, k, t - 1);
    CompareAt(Mul(q, y), x, m);
    CompareAt(x, Mul(Dec(t + 1, -k), y), m);
    CompareAt(Mul(Dec(t - 1, -k), y), x, m);
    CompareAt(x, Mul(q, y), m);
  }

  lemma DivBracketUnique(a: int, b: int, n: int, d: int)
    requires d > 0
    requires a * d <= n < (a + 1) * d
    requires b * d <= n < (b + 1) * d
    ensures a == b
  {
    if a < b {
      MulMonotone(a + 1, b, d);
    } else if b < a {
      MulMonotone(b + 1, a, d);
    }
  }

  /** There is only one rounded-down quotient, so `RoundedDownQuotient` is a full
      specification of `QuotientDown` for positive divisors. */
  lemma RoundedDownQuotientUnique(q1: Dec, q2: Dec, x: Dec, y: Dec, k: int)
    requires y.coef > 0
    requires RoundedDownQuotient(q1, x, y, k) && RoundedDownQuotient(q2, x, y, k)
    ensures q1 == q2
  {
    var nd := QuotientTerms(x, y, k);
    RoundedDownQuotientTerms(q1, x, y, k);
    RoundedDownQuotientTerms(q2, x, y, k);
    if nd.0 >= 0 {
      DivBracketUnique(q1.coef, q2.coef, nd.0, nd.1);
    } else {
      DivBracketUnique(q1.coef - 1, q2.coef - 1, nd.0 - 1, nd.1);
    }
  }

  /** `x.quantize(Ulp(k), rounding=ROUND_DOWN)`: x truncated toward zero to exactly
      k fractional digits (padding with zeros when x has fewer). */
  function QuantizeDown(x: Dec, k: int): (r: Dec)
    ensures r.exp == -k
  {
    if x.exp >= -k then Dec(x.coef * Pow10(x.exp + k), -k)
    else Dec(DivDown(x.coef, Pow10(-k - x.exp)), -k)
  }

  /** Quantizing is dividing by one: both round the exact value down to k digits. */
  lemma QuantizeIsQuotientByOne(x: Dec, k: int)
    ensures QuantizeDown(x, k) == QuotientDown(x, Dec(1, 0), k)
  {
  }

  lemma QuantizeDownBounds(x: Dec, k: int)
    ensures RoundedDown(QuantizeDown(x, k), x, k)
  {
    var one := Dec(1, 0);
    var r := QuantizeDown(x, k);
    QuantizeIsQuotientByOne(x, k);
    QuotientDownBounds(x, one, k);
    assert Mul(r, one) == r;
    assert Mul(Add(r, Ulp(k)), one) == Add(r, Ulp(k));
    assert Mul(Add(r, Neg(Ulp(k))), one) == Add(r, Neg(Ulp(k)));
  }

  /** A decimal that already has at most k fractional digits keeps its value. */
  lemma QuantizeDownExact(x: Dec, k: int)
    requires x.exp >= -k
    ensures SameValue(QuantizeDown(x, k), x)
  {
    CompareAt(QuantizeDown(x, k), x, -k);
  }

  /** Rounding twice to the same precision changes nothing. */
  lemma QuantizeDownIdempotent(x: Dec, k: int)
    ensures QuantizeDown(QuantizeDown(x, k), k) == QuantizeDown(x, k)
  {
  }
}

=== FILE: kraken.dfy ===
/** The arithmetic of `KrakenClient`: rounding the ticker price and sizing an order.
    The exchange itself is not modelled; its answers are parameters. */
module Kraken {
  import opened Wrappers
  import opened Decimals

  /** Fractional digits kept for a EUR price, and for a ZEC quantity. */
  const PriceDigits: nat := 2
  const ZecDigits: nat := 8

  /** `get_current_price` after the fetch: the last traded price rounded down to cents. */
  function CurrentPrice(last: Dec): (p: Dec)
    ensures RoundedDown(p, last, PriceDigits)
  {
    QuantizeDownBounds(last, PriceDigits);
    QuantizeDown(last, PriceDigits)
  }

  /** A price already in cents is quoted unchanged. */
  lemma CurrentPriceOfCents(last: Dec)
    requires last.exp == -(PriceDigits as int)
    ensures CurrentPrice(last) == last
  {
  }

  /** `calculate_zec_amount`: the budget divided by the price, rounded down to 8
      fractional digits. Dividing by a zero price raises `DivisionByZero` (or
      `InvalidOperation` for 0/0), which is `None` here. With a positive price the
      quantity costs at most the budget, and one more unit of the last digit would
      cost more than a non-negative budget. */
  function CalculateZecAmount(eur: Dec, price: Dec): (r: Option<Dec>)
    ensures r.None? <==> price.coef == 0
    ensures r.Some? ==> r.value.exp == -(ZecDigits as int)
    ensures r.Some? && IsPositive(price) ==> RoundedDownQuotient(r.value, eur, price, ZecDigits)
    ensures r.Some? && IsPositive(price) && !IsNegative(eur) ==> Le(Mul(r.value, price), eur)
  {
    if price.coef == 0 then None
    else if price.coef < 0 then Some(QuotientDown(eur, price, ZecDigits))
    else
      QuotientDownBounds(eur, price, ZecDigits);
      Some(QuotientDown(eur, price, ZecDigits))
  }

  /** With a positive price, the 8-digit quantity meeting the bounds is unique, so the
      bounds determine the result. */
  lemma ZecAmountUnique(eur: Dec, price: Dec, q: Dec)
    requires IsPositive(price)
    requires RoundedDownQuotient(q, eur, price, ZecDigits)
    ensures CalculateZecAmount(eur, price) == Some(q)
  {
    RoundedDownQuotientUnique(q, CalculateZecAmount(eur, price).value, eur, price, ZecDigits);
  }

  /** 100.00 EUR at 33.33 EUR/ZEC buys 3.00030003 ZEC. */
  lemma ZecAmountExample()
    ensures CalculateZecAmount(Dec(10000, -2), Dec(3333, -2)) == Some(Dec(300030003, -8))
  {
    var eur, price, q := Dec(10000, -2), Dec(3333, -2), Dec(300030003, -8);
    assert RoundedDownQuotient(q, eur, price, ZecDigits) by {
      assert Pow10(0) == 1 && Pow10(8) == 100000000;
      CompareAt(Mul(q, price), eur, -10);
      CompareAt(eur, Mul(Add(q, Ulp(ZecDigits)), price), -10);
    }
    ZecAmountUnique(eur, price, q);
  }
}

=== FILE: records.dfy ===
/** One purchase (`PurchaseRecord`) and its dictionary form (`to_dict` / `from_dict`).

    The ledger file is JSON; `Json` is the value `json.load` hands back. Decimals are
    stored as their exact text, so a record read back equals the record written. */
module Records {
  import opened Wrappers
  import opened Decimals
  import opened DecimalText

  /** A JSON value as `json.load` returns it. Only integral numbers are modelled. */
  datatype Json =
    | JNull
    | JBool(b: bool)
    | JInt(i: int)
    | JStr(s: string)
    | JArr(items: seq<Json>)
    | JObj(fields: map<string, Json>)

  /** How reading a value out of a loaded document ends: with the value; with an
      error `load_data` catches and answers with an empty ledger (`KeyError`,
      `InvalidOperation`); or with an error that escapes it (`TypeError`,
      `AttributeError`, `ValueError`). */
  datatype Read<+T> = Got(value: T) | Malformed | Raises {

    predicate IsFailure() {
      !Got?
    }

    function PropagateFailure<U>(): Read<U>
      requires !Got?
    {
      if Malformed? then Malformed else Raises
    }

    function Extract(): T
      requires Got?
    {
      value
    }
  }

  /** One completed or simulated purchase. `orderId` is present only for live buys. */
  datatype PurchaseRecord = PurchaseRecord(
    date: string,
    zecBought: Dec,
    eurSpent: Dec,
    pricePerZec: Dec,
    orderId: Option<string>,
    dryRun: bool)

  /** The constructor passes each amount through `Decimal(str(x))`; that changes no
      decimal, so the record holds exactly the amounts it was given. */
  function NewRecord(date: string, zecBought: Dec, eurSpent: Dec, pricePerZec: Dec,
                     orderId: Option<string>, dryRun: bool): (r: PurchaseRecord)
    ensures r == PurchaseRecord(date, zecBought, eurSpent, pricePerZec, orderId, dryRun)
  {
    FormatParseRoundTrip(zecBought);
    FormatParseRoundTrip(eurSpent);
    FormatParseRoundTrip(pricePerZec);
    PurchaseRecord(date, Renormalise(zecBought), Renormalise(eurSpent),
                   Renormalise(pricePerZec), orderId, dryRun)
  }

  /** `Decimal(str(x))`. */
  function Renormalise(x: Dec): Dec {
    match ParseDecimal(FormatDecimal(x))
    case Some(y) => y
    case None => x
  }

  /** `to_dict`: every amount as its exact decimal text. */
  function ToDict(r: PurchaseRecord): map<string, Json> {
    map[
      "date" := JStr(r.date),
      "zec_bought" := JStr(FormatDecimal(r.zecBought)),
      "eur_spent" := JStr(FormatDecimal(r.eurSpent)),
      "price_per_zec" := JStr(FormatDecimal(r.pricePerZec)),
      "order_id" := OrderIdJson(r.orderId),
      "dry_run" := JBool(r.dryRun)
    ]
  }

  /** `Decimal(v)` for a JSON value v: text is parsed, and text that is not a number
      is `InvalidOperation`, which `load_data` catches. Integers and booleans convert
      exactly; anything else is a `TypeError`/`ValueError` that escapes. */
  function DecimalOf(v: Json): (r: Read<Dec>)
    ensures v.JStr? && ParseDecimal(v.s).Some? ==> r == Got(ParseDecimal(v.s).value)
    ensures v.JStr? && ParseDecimal(v.s).None? ==> r.Malformed?
    ensures v.JInt? ==> r == Got(Dec(v.i, 0))
    ensures v.JBool? ==> r == Got(Dec(if v.b then 1 else 0, 0))
    ensures v.JNull? || v.JArr? || v.JObj? ==> r.Raises?
  {
    match v
    case JStr(s) => (match ParseDecimal(s) case Some(d) => Got(d) case None => Malformed)
    case JInt(i) => Got(Dec(i, 0))
    case JBool(b) => Got(Dec(if b then 1 else 0, 0))
    case _ => Raises
  }

  /** `data[key]`: a missing key is a `KeyError`. */
  function Field(m: map<string, Json>, key: string): (r: Read<Json>)
    ensures r.Got? <==> key in m
    ensures r.Got? ==> r.value == m[key]
    ensures !r.Got? ==> r.Malformed?
  {
    if key in m then Got(m[key]) else Malformed
  }

  function DecimalField(m: map<string, Json>, key: string): Read<Dec> {
    var v :- Field(m, key);
    DecimalOf(v)
  }

  /** The stored form of an order id: its text, or `null`. */
  function OrderIdJson(id: Option<string>): Json {
    match id
    case Some(s) => JStr(s)
    case None => JNull
  }

  /** `data.get('order_id')`. */
  function OrderIdOf(m: map<string, Json>): Read<Option<string>> {
    if "order_id" !in m then Got(None)
    else match m["order_id"]
      case JNull => Got(None)
      case JStr(s) => Got(Some(s))
      case _ => Malformed
  }

  /** `data.get('dry_run', False)`. */
  function DryRunOf(m: map<string, Json>): Read<bool> {
    if "dry_run" !in m then Got(false)
    else match m["dry_run"]
      case JBool(b) => Got(b)
      case _ => Malformed
  }

  const RequiredKeys: seq<string> := ["date", "zec_bought", "eur_spent", "price_per_zec"]

  /** `from_dict`: the fields are read in argument order, and the first failure
      decides the outcome. Indexing anything but an object raises `TypeError`; among
      text fields, a missing required key (`KeyError`) or an amount that is not a
      number (`InvalidOperation`) is an error `load_data` catches. */
  function FromDict(p: Json): (r: Read<PurchaseRecord>)
    ensures !p.JObj? ==> r.Raises?
    ensures r.Got? ==> p.JObj? && forall k | k in RequiredKeys :: k in p.fields
    ensures p.JObj? && "date" !in p.fields ==> r.Malformed?
    ensures && p.JObj?
            && (forall k | k in RequiredKeys && k in p.fields :: p.fields[k].JStr?)
            && (exists k | k in RequiredKeys ::
                  k !in p.fields || (k != "date" && ParseDecimal(p.fields[k].s).None?))
            ==> r.Malformed?
  {
    if !p.JObj? then Raises
    else
      var m := p.fields;
      var date :- Field(m, "date");
      if !date.JStr? then Malformed
      else
        var zec :- DecimalField(m, "zec_bought");
        var eur :- DecimalField(m, "eur_spent");
        var price :- DecimalField(m, "price_per_zec");
        var orderId :- OrderIdOf(m);
        var dryRun :- DryRunOf(m);
        Got(NewRecord(date.s, zec, eur, price, orderId, dryRun))
  }

  /** Writing a record and reading it back gives the same record, field for field,
      every amount with its exact coefficient and exponent. */
  lemma RecordRoundTrip(r: PurchaseRecord)
    ensures FromDict(JObj(ToDict(r))) == Got(r)
  {
    var m := ToDict(r);
    assert m["date"] == JStr(r.date);
    StoredDecimal(m, "zec_bought", r.zecBought);
    StoredDecimal(m, "eur_spent", r.eurSpent);
    StoredDecimal(m, "price_per_zec", r.pricePerZec);
    StoredOrderId(m, r.orderId);
    assert m["dry_run"] == JBool(r.dryRun);
    FromDictFields(m, r.date, r.zecBought, r.eurSpent, r.pricePerZec, r.orderId, r.dryRun);
  }

  /** An amount stored as its text reads back as the same decimal. */
  lemma StoredDecimal(m: map<string, Json>, key: string, d: Dec)
    requires key in m && m[key] == JStr(FormatDecimal(d))
    ensures DecimalField(m, key) == Got(d)
  {
    FormatParseRoundTrip(d);
  }

  /** An order id stored as text or `null` reads back as itself. */
  lemma StoredOrderId(m: map<string, Json>, id: Option<string>)
    requires "order_id" in m && m["order_id"] == OrderIdJson(id)
    ensures OrderIdOf(m) == Got(id)
  {
  }

  /** `from_dict` on a dictionary whose every field reads successfully builds the
      record of exactly those values. */
  lemma FromDictFields(m: map<string, Json>, date: string, zec: Dec, eur: Dec, price: Dec,
                       orderId: Option<string>, dryRun: bool)
    requires "date" in m && m["date"] == JStr(date)
    requires DecimalField(m, "zec_bought") == Got(zec)
    requires DecimalField(m, "eur_spent") == Got(eur)
    requires DecimalField(m, "price_per_zec") == Got(price)
    requires OrderIdOf(m) == Got(orderId)
    requires DryRunOf(m) == Got(dryRun)
    ensures FromDict(JObj(m)) == Got(PurchaseRecord(date, zec, eur, price, orderId, dryRun))
  {
  }

  /** A dictionary without `order_id` or `dry_run` reads as a record with no order id
      that is not a dry run. */
  lemma FromDictDefaults(m: map<string, Json>, date: string, zec: Dec, eur: Dec, price: Dec)
    requires "order_id" !in m && "dry_run" !in m
    requires "date" in m && m["date"] == JStr(date)
    requires DecimalField(m, "zec_bought") == Got(zec)
    requires DecimalField(m, "eur_spent") == Got(eur)
    requires DecimalField(m, "price_per_zec") == Got(price)
    ensures FromDict(JObj(m)) == Got(PurchaseRecord(date, zec, eur, price, None, false))
  {
    FromDictFields(m, date, zec, eur, price, None, false);
  }

  /** Reading a list of records: all of them, in order, or the outcome of the first
      one that fails. */
  function FromDictAll(items: seq<Json>): (r: Read<seq<PurchaseRecord>>)
    ensures r.Got? <==> forall i | 0 <= i < |items| :: FromDict(items[i]).Got?
    ensures r.Got? ==> |r.value| == |items|
                       && forall i | 0 <= i < |items| :: FromDict(items[i]) == Got(r.value[i])
    ensures !r.Got? ==> exists i | 0 <= i < |items| ::
                          && !FromDict(items[i]).Got?
                          && (r.Malformed? <==> FromDict(items[i]).Malformed?)
                          && forall j | 0 <= j < i :: FromDict(items[j]).Got?
  {
    if |items| == 0 then Got([])
    else
      var first :- FromDict(items[0]);
      var rest :- FromDictAll(items[1..]);
      Got([first] + rest)
  }

  /** `[p.to_dict() for p in purchases]`. */
  function ToDictAll(ps: seq<PurchaseRecord>): (items: seq<Json>)
    ensures |items| == |ps|
  {
    seq(|ps|, i requires 0 <= i < |ps| => JObj(ToDict(ps[i])))
  }

  lemma RecordsRoundTrip(ps: seq<PurchaseRecord>)
    ensures FromDictAll(ToDictAll(ps)) == Got(ps)
  {
    var items := ToDictAll(ps);
    forall i | 0 <= i < |items|
      ensures FromDict(items[i]) == Got(ps[i])
    {
      RecordRoundTrip(ps[i]);
    }
    var r := FromDictAll(items);
    assert r.value == ps;
  }
}

=== FILE: tracker.dfy ===
/** The accumulation ledger (`AccumulationTracker`): an append-only list of purchases,
    two running totals, and the file they are saved to and loaded from. */
module Tracker {
  import opened Wrappers
  import opened Decimals
  import opened DecimalText
  import opened Records

  datatype Ledger = Ledger(totalZec: Dec, totalEurSpent: Dec, purchases: seq<PurchaseRecord>)

  /** `_initialize_empty_data`: zero totals (`Decimal('0')`) and no purchases. */
  const EmptyLedger: Ledger := Ledger(Zero, Zero, [])

  function ZecColumn(ps: seq<PurchaseRecord>): (col: seq<Dec>)
    ensures |col| == |ps|
  {
    seq(|ps|, i requires 0 <= i < |ps| => ps[i].zecBought)
  }

  function EurColumn(ps: seq<PurchaseRecord>): (col: seq<Dec>)
    ensures |col| == |ps|
  {
    seq(|ps|, i requires 0 <= i < |ps| => ps[i].eurSpent)
  }

  /** Both totals are exactly the sums of the recorded amounts (same coefficient and
      exponent as Python's left-to-right sum starting from `Decimal('0')`). */
  predicate Consistent(l: Ledger) {
    && l.totalZec == Total(ZecColumn(l.purchases))
    && l.totalEurSpent == Total(EurColumn(l.purchases))
  }

  lemma EmptyLedgerConsistent()
    ensures Consistent(EmptyLedger) && EmptyLedger.purchases == []
  {
  }

  /** `add_purchase` (without the save that follows it): the record goes at the end,
      every earlier record stays where it was, and each total grows by the record's
      amount. */
  function AddPurchase(l: Ledger, p: PurchaseRecord): (r: Ledger)
    ensures |r.purchases| == |l.purchases| + 1
    ensures r.purchases[..|l.purchases|] == l.purchases
    ensures r.purchases[|l.purchases|] == p
  {
    Ledger(Add(l.totalZec, p.zecBought), Add(l.totalEurSpent, p.eurSpent), l.purchases + [p])
  }

  /** The totals grow by exactly the purchase's amounts, compared at any common scale. */
  lemma AddPurchaseTotals(l: Ledger, p: PurchaseRecord, k: int)
    requires k <= l.totalZec.exp && k <= p.zecBought.exp
    requires k <= l.totalEurSpent.exp && k <= p.eurSpent.exp
    ensures var r := AddPurchase(l, p);
            && k <= r.totalZec.exp && k <= r.totalEurSpent.exp
            && Scaled(r.totalZec, k) == Scaled(l.totalZec, k) + Scaled(p.zecBought, k)
            && Scaled(r.totalEurSpent, k) == Scaled(l.totalEurSpent, k) + Scaled(p.eurSpent, k)
  {
    AddValue(l.totalZec, p.zecBought, k);
    AddValue(l.totalEurSpent, p.eurSpent, k);
  }

  lemma ColumnsSnoc(ps: seq<PurchaseRecord>, p: PurchaseRecord)
    ensures ZecColumn(ps + [p]) == ZecColumn(ps) + [p.zecBought]
    ensures EurColumn(ps + [p]) == EurColumn(ps) + [p.eurSpent]
  {
    assert forall i | 0 <= i < |ps| :: (ps + [p])[i] == ps[i];
  }

  /** Adding a purchase to a ledger whose totals match its records keeps them matching. */
  lemma AddPurchaseConsistent(l: Ledger, p: PurchaseRecord)
    requires Consistent(l)
    ensures Consistent(AddPurchase(l, p))
  {
    ColumnsSnoc(l.purchases, p);
    TotalSnoc(ZecColumn(l.purchases), p.zecBought);
    TotalSnoc(EurColumn(l.purchases), p.eurSpent);
  }

  /** The ledger a fresh tracker reaches by adding `ps` one after the other. */
  function Replay(ps: seq<PurchaseRecord>): Ledger {
    if |ps| == 0 then EmptyLedger
    else AddPurchase(Replay(ps[..|ps| - 1]), ps[|ps| - 1])
  }

  /** Starting from the empty ledger, the records are exactly those added, in order. */
  lemma {:induction false} ReplayRecords(ps: seq<PurchaseRecord>)
    ensures Replay(ps).purchases == ps
  {
    if |ps| > 0 {
      var init, last := ps[..|ps| - 1], ps[|ps| - 1];
      ReplayRecords(init);
      assert init + [last] == ps;
    }
  }

  /** Starting from the empty ledger, the totals are always the sums of the records. */
  lemma {:induction false} ReplayConsistent(ps: seq<PurchaseRecord>)
    ensures Consistent(Replay(ps))
  {
    if |ps| > 0 {
      var init, last := ps[..|ps| - 1], ps[|ps| - 1];
      ReplayConsistent(init);
      AddPurchaseConsistent(Replay(init), last);
    }
  }

  /** `get_average_price`: nothing unless some ZEC is held; otherwise EUR spent per ZEC,
      rounded down to cents. */
  function AveragePrice(l: Ledger): (r: Option<Dec>)
    ensures r.None? <==> !IsPositive(l.totalZec)
    ensures r.Some? ==> r.value.exp == -2
                        && RoundedDownQuotient(r.value, l.totalEurSpent, l.totalZec, 2)
  {
    if IsPositive(l.totalZec) then
      QuotientDownBounds(l.totalEurSpent, l.totalZec, 2);
      Some(QuotientDown(l.totalEurSpent, l.totalZec, 2))
    else
      None
  }

  /** The cent-rounded average is the only two-digit decimal meeting the bounds. */
  lemma AveragePriceUnique(l: Ledger, a: Dec)
    requires IsPositive(l.totalZec)
    requires a.exp == -2 && RoundedDownQuotient(a, l.totalEurSpent, l.totalZec, 2)
    ensures AveragePrice(l) == Some(a)
  {
    RoundedDownQuotientUnique(a, AveragePrice(l).value, l.totalEurSpent, l.totalZec, 2);
  }

  /** 100.555 EUR over 10 ZEC averages 10.05. */
  lemma AveragePriceExample()
    ensures AveragePrice(Ledger(Dec(10, 0), Dec(100555, -3), [])) == Some(Dec(1005, -2))
  {
    var l := Ledger(Dec(10, 0), Dec(100555, -3), []);
    assert Dec(1005, -2).exp == -2;
    assert RoundedDownQuotient(Dec(1005, -2), l.totalEurSpent, l.totalZec, 2) by {
      assert Pow10(1) == 10 && Pow10(2) == 100 && Pow10(3) == 1000;
      CompareAt(Mul(Dec(1005, -2), l.totalZec), l.totalEurSpent, -3);
      CompareAt(l.totalEurSpent, Mul(Add(Dec(1005, -2), Ulp(2)), l.totalZec), -3);
    }
    AveragePriceUnique(l, Dec(1005, -2));
  }

  /** The dictionary `get_stats` returns. */
  datatype Stats = Stats(
    totalZec: Dec,
    totalEurSpent: Dec,
    averagePrice: Option<Dec>,
    numPurchases: nat,
    firstPurchase: Option<string>,
    lastPurchase: Option<string>)

  /** `get_stats`: the totals, the average, the count, and the first and last dates. */
  function GetStats(l: Ledger): (s: Stats)
    ensures s.numPurchases == |l.purchases|
    ensures s.averagePrice == AveragePrice(l)
    ensures s.totalZec == l.totalZec && s.totalEurSpent == l.totalEurSpent
    ensures s.firstPurchase.Some? <==> |l.purchases| > 0
    ensures s.lastPurchase.Some? <==> |l.purchases| > 0
    ensures |l.purchases| > 0 ==> && s.firstPurchase == Some(l.purchases[0].date)
                                  && s.lastPurchase == Some(l.purchases[|l.purchases| - 1].date)
  {
    Stats(l.totalZec, l.totalEurSpent, AveragePrice(l), |l.purchases|,
          if |l.purchases| > 0 then Some(l.purchases[0].date) else None,
          if |l.purchases| > 0 then Some(l.purchases[|l.purchases| - 1].date) else None)
  }

  /** After a purchase the count goes up by one, the last date is the new record's, and
      the first date only changes when the ledger was empty. */
  lemma StatsAfterAdd(l: Ledger, p: PurchaseRecord)
    ensures var before := GetStats(l);
            var after := GetStats(AddPurchase(l, p));
            && after.numPurchases == before.numPurchases + 1
            && after.lastPurchase == Some(p.date)
            && after.firstPurchase == (if before.numPurchases == 0 then Some(p.date)
                                       else before.firstPurchase)
  {
  }

  /** On a ledger built from the empty one, the stats report the sums of the records. */
  lemma StatsOfReplay(ps: seq<PurchaseRecord>)
    ensures var s := GetStats(Replay(ps));
            && s.totalZec == Total(ZecColumn(ps))
            && s.totalEurSpent == Total(EurColumn(ps))
            && s.numPurchases == |ps|
  {
    ReplayRecords(ps);
    ReplayConsistent(ps);
  }

  /** `save_data`: both totals as their exact text and every record as its dictionary. */
  function SaveDocument(l: Ledger): Json {
    JObj(map[
      "total_zec" := JStr(FormatDecimal(l.totalZec)),
      "total_eur_spent" := JStr(FormatDecimal(l.totalEurSpent)),
      "purchases" := JArr(ToDictAll(l.purchases))
    ])
  }

  /** What `load_data` finds: no file, a file that is not JSON (`JSONDecodeError`), or
      the JSON value in it. */
  datatype LedgerFile = NoFile | Unparsable | Parsed(doc: Json)

  datatype LoadNote = FromFile | NoFileFound | CouldNotLoad

  /** The tracker's state after `load_data`, or an exception that escapes it. */
  datatype LoadOutcome = Loaded(ledger: Ledger, note: LoadNote) | Crashed

  /** `Decimal(data.get(key, '0'))`. */
  function TotalOf(m: map<string, Json>, key: string): Read<Dec> {
    if key !in m then Got(Zero) else DecimalOf(m[key])
  }

  /** `[from_dict(p) for p in data.get('purchases', [])]`. Iterating text or an object
      yields strings (keys), and indexing a string with `'date'` is a `TypeError`; a
      number, boolean or `null` is not iterable. */
  function PurchasesOf(m: map<string, Json>): (r: Read<seq<PurchaseRecord>>)
    ensures "purchases" !in m ==> r == Got([])
    ensures "purchases" in m && m["purchases"].JArr? ==> r == FromDictAll(m["purchases"].items)
    ensures "purchases" in m && (m["purchases"].JNull? || m["purchases"].JBool? || m["purchases"].JInt?)
            ==> r.Raises?
    ensures "purchases" in m && m["purchases"].JStr? ==> (r.Got? <==> |m["purchases"].s| == 0)
    ensures "purchases" in m && m["purchases"].JObj? ==> (r.Got? <==> |m["purchases"].fields| == 0)
    ensures r.Got? && "purchases" in m && !m["purchases"].JArr? ==> r.value == []
    ensures !r.Got? && "purchases" in m && !m["purchases"].JArr? ==> r.Raises?
  {
    if "purchases" !in m then Got([])
    else match m["purchases"]
      case JArr(items) => FromDictAll(items)
      case JStr(s) => if |s| == 0 then Got([]) else Raises
      case JObj(f) => if |f| == 0 then Got([]) else Raises
      case _ => Raises
  }

  /** The body of the `try` in `load_data`: `data.get` on anything but an object is an
      `AttributeError`. A missing total reads as zero and missing purchases as none,
      so an empty object decodes to the empty ledger; a stored list of purchases
      decodes to exactly the records `from_dict` makes of its items, in order. */
  function DecodeLedger(doc: Json): (r: Read<Ledger>)
    ensures !doc.JObj? ==> r.Raises?
    ensures doc.JObj? ==>
              (r.Got? <==> && TotalOf(doc.fields, "total_zec").Got?
                           && TotalOf(doc.fields, "total_eur_spent").Got?
                           && PurchasesOf(doc.fields).Got?)
    ensures doc.JObj? && !TotalOf(doc.fields, "total_zec").Got? ==>
              (r.Malformed? <==> TotalOf(doc.fields, "total_zec").Malformed?)
    ensures doc.JObj? && TotalOf(doc.fields, "total_zec").Got?
            && !TotalOf(doc.fields, "total_eur_spent").Got? ==>
              (r.Malformed? <==> TotalOf(doc.fields, "total_eur_spent").Malformed?)
    ensures doc.JObj? && TotalOf(doc.fields, "total_zec").Got?
            && TotalOf(doc.fields, "total_eur_spent").Got? && !PurchasesOf(doc.fields).Got? ==>
              (r.Malformed? <==> PurchasesOf(doc.fields).Malformed?)
    ensures doc == JObj(map[]) ==> r == Got(EmptyLedger)
    ensures r.Got? && "total_zec" !in doc.fields ==> r.value.totalZec == Zero
    ensures r.Got? && "total_zec" in doc.fields ==> DecimalOf(doc.fields["total_zec"]) == Got(r.value.totalZec)
    ensures r.Got? && "total_eur_spent" in doc.fields ==>
              DecimalOf(doc.fields["total_eur_spent"]) == Got(r.value.totalEurSpent)
    ensures r.Got? && "total_eur_spent" !in doc.fields ==> r.value.totalEurSpent == Zero
    ensures r.Got? && "purchases" !in doc.fields ==> r.value.purchases == []
    ensures r.Got? && "purchases" in doc.fields && doc.fields["purchases"].JArr? ==>
              var items := doc.fields["purchases"].items;
              && |r.value.purchases| == |items|
              && forall i | 0 <= i < |items| :: FromDict(items[i]) == Got(r.value.purchases[i])
  {
    if !doc.JObj? then Raises
    else
      var m := doc.fields;
      var zec :- TotalOf(m, "total_zec");
      var eur :- TotalOf(m, "total_eur_spent");
      var ps :- PurchasesOf(m);
      Got(Ledger(zec, eur, ps))
  }

  /** `load_data`: a missing file, a file that is not JSON, and a caught `KeyError` or
      `InvalidOperation` all leave the tracker empty; any other error escapes. */
  function LoadData(f: LedgerFile): (o: LoadOutcome)
    ensures o.Loaded? && o.note != FromFile ==> o.ledger == EmptyLedger
    ensures o.Loaded? && o.note == NoFileFound <==> f.NoFile?
    ensures o.Crashed? <==> f.Parsed? && DecodeLedger(f.doc).Raises?
    ensures f.Unparsable? ==> o == Loaded(EmptyLedger, CouldNotLoad)
    ensures f.Parsed? && DecodeLedger(f.doc).Malformed? ==> o == Loaded(EmptyLedger, CouldNotLoad)
    ensures f.Parsed? && DecodeLedger(f.doc).Got? ==> o == Loaded(DecodeLedger(f.doc).value, FromFile)
  {
    match f
    case NoFile => Loaded(EmptyLedger, NoFileFound)
    case Unparsable => Loaded(EmptyLedger, CouldNotLoad)
    case Parsed(doc) =>
      match DecodeLedger(doc)
      case Got(l) => Loaded(l, FromFile)
      case Malformed => Loaded(EmptyLedger, CouldNotLoad)
      case Raises => Crashed
  }

  lemma StoredTotal(m: map<string, Json>, key: string, d: Dec)
    requires key in m && m[key] == JStr(FormatDecimal(d))
    ensures TotalOf(m, key) == Got(d)
  {
    FormatParseRoundTrip(d);
  }

  /** Loading what `save_data` wrote gives back the same ledger: totals and records
      exactly, whether or not the totals match the records. */
  lemma SaveLoadRoundTrip(l: Ledger)
    ensures LoadData(Parsed(SaveDocument(l))) == Loaded(l, FromFile)
  {
    DecodeSaved(l, SaveDocument(l).fields);
  }

  lemma DecodeSaved(l: Ledger, m: map<string, Json>)
    requires m == SaveDocument(l).fields
    ensures DecodeLedger(JObj(m)) == Got(l)
  {
    StoredTotal(m, "total_zec", l.totalZec);
    StoredTotal(m, "total_eur_spent", l.totalEurSpent);
    StoredPurchases(m, l.purchases);
  }

  lemma StoredPurchases(m: map<string, Json>, ps: seq<PurchaseRecord>)
    requires "purchases" in m && m["purchases"] == JArr(ToDictAll(ps))
    ensures PurchasesOf(m) == Got(ps)
  {
    RecordsRoundTrip(ps);
  }

  /** A total whose text is not a number (`InvalidOperation`) makes the tracker start
      empty, whatever else the file holds. */
  lemma BadTotalStartsEmpty(m: map<string, Json>, key: string, s: string)
    requires key == "total_zec" || key == "total_eur_spent"
    requires key in m && m[key] == JStr(s) && ParseDecimal(s).None?
    requires key == "total_eur_spent" ==> TotalOf(m, "total_zec").Got?
    ensures LoadData(Parsed(JObj(m))) == Loaded(EmptyLedger, CouldNotLoad)
  {
  }

  /** A stored record that fails with a caught error (a missing key, an amount that is
      not a number), preceded only by readable records, makes the tracker start empty. */
  lemma BadRecordStartsEmpty(m: map<string, Json>, items: seq<Json>, i: int)
    requires TotalOf(m, "total_zec").Got? && TotalOf(m, "total_eur_spent").Got?
    requires "purchases" in m && m["purchases"] == JArr(items)
    requires 0 <= i < |items| && FromDict(items[i]).Malformed?
    requires forall j | 0 <= j < i :: FromDict(items[j]).Got?
    ensures LoadData(Parsed(JObj(m))) == Loaded(EmptyLedger, CouldNotLoad)
  {
    var r := FromDictAll(items);
    assert !r.Got?;
    var i0 :| 0 <= i0 < |items| && !FromDict(items[i0]).Got?
              && (r.Malformed? <==> FromDict(items[i0]).Malformed?)
              && forall j | 0 <= j < i0 :: FromDict(items[j]).Got?;
    assert i0 == i;
    assert PurchasesOf(m) == r;
  }

  /** Loading trusts the stored totals: a file claiming 5 ZEC with no purchases loads
      as such, so a loaded ledger need not be consistent. */
  lemma LoadDoesNotCheckTotals()
    ensures var o := LoadData(Parsed(JObj(map["total_zec" := JStr("5")])));
            && o == Loaded(Ledger(Dec(5, 0), Zero, []), FromFile)
            && !Consistent(o.ledger)
  {
    assert ParseDecimal("5") == Some(Dec(5, 0)) by {
      FormatParseRoundTrip(Dec(5, 0));
      assert FormatDecimal(Dec(5, 0)) == "5";
    }
  }

  /** `"total_zec": null` is a `TypeError` that `load_data` does not catch. */
  lemma NullTotalCrashes(m: map<string, Json>)
    requires "total_zec" in m && m["total_zec"] == JNull
    ensures LoadData(Parsed(JObj(m))) == Crashed
  {
  }
}

=== FILE: wrappers.dfy ===
/** Optional values: Python's `None` versus a present value. */
module Wrappers {

  datatype Option<+T> = None | Some(value: T)
}
